=== FILE: README.md ===
# channels-demultiplexer, modelled in Dafny

This project models the routing core of `channels_demultiplexer`, a Django Channels consumer.
The consumer carries several independent streams over one WebSocket. Every frame is an
envelope `{"stream": <name>, "payload": <content>}`; both field names are configurable. The
router (`WebsocketDemultiplexer`) does four things:

- it routes each inbound envelope to the input queue of the child consumer registered for
  that stream;
- it broadcasts connect and disconnect messages to every stream;
- it wraps everything a child sends in an envelope tagged with the child's stream;
- it suppresses the children's own accept, so that only the router accepts the socket.

Each child reads its queue (`MessageQueue`). That queue is an unbounded asyncio queue whose
`get` marks an item done as soon as it removes it.

The model is a state machine over immutable data. Every transition is a pure function of the
router state and one input.

- `wrappers.dfy`: `Option` and `Result`. A raised exception becomes a `Failure`.
- `exceptions.dfy`: `ValueError` and `TypeError`, and the literal messages the router raises.
  The doubled asterisk in the malformed-frame message is kept verbatim; the tests pin it.
- `json.dfy`: decoded JSON content, and which values Python can use as dict keys.
- `envelope.dfy`: the two configured field names (default `"stream"` and `"payload"`), and
  the wrap/unwrap codec with its round trips.
- `queues.dfy`: `MessageQueue` as its items plus asyncio's unfinished-task counter. It has
  `put`, `get` (removal followed by `task_done`) and the `join` barrier. Also a FIFO law over
  any interleaving of puts and gets, and a consumer loop that drains the queue.
- `demultiplexer.dfy`: the router state and one function per source method. The state holds
  the config, the consumers, every stream's queue, the set of streams still accepting (the
  keys of the source's `_input_queues`) and the frames sent on the socket.
- `lifecycle.dfy`: every input the socket or a child can produce, a step function, runs over
  input sequences, and the invariants that hold along every run.
- `scenarios.dfy`: the behaviours the repository's tests check, stated on the model.

Modelling choices:

- `encode_json` is a parameter `encode: Json -> string`, so every property holds for any
  encoder.
- A child blocked in `get` on an empty queue is the precondition "the queue is not empty". In
  a run it is a step that changes nothing.
- The source keeps each queue object alive after popping its stream from `_input_queues`: the
  child's bound `get` and the list passed to `_join_queues` still refer to it. The model
  therefore keeps every stream's queue in `inboxes` and records acceptance separately in
  `accepting`.
- `connect` puts only on the queues still in `_input_queues`, exactly as the loop at
  `channels_demultiplexer/demultiplexer.py:63-64` does.
- A list or dict used as the stream value makes the dict lookup at
  `channels_demultiplexer/demultiplexer.py:78-80` raise `TypeError` (unhashable type), not
  the `KeyError` that line 81 catches. The model returns that `TypeError`. Any other
  non-string stream value gives "stream not mapped", because only strings are keys.
- `super().connect()` accepts the socket. It is recorded as one `AcceptFrame`.
  `super().close(code)` is recorded as one `CloseFrame`. `send_json` is recorded as a
  `JsonFrame` holding the JSON content before serialisation.
- `_send_json_multiplexed` passes `close` on to the router's own `send_json`. The Channels
  base class's `send` then calls `self.close(True)`, and that is the router's overridden
  `close`. So a child that sends with `close=True` disconnects every stream and closes the
  socket. The model records this as the close code `TrueCode`. When no stream accepts any
  more, that `close` raises, but in the child's task only: `__call__` runs the router and
  every child as separate tasks under one `asyncio.wait`, so the frame already sent stays
  sent and the router keeps handling its inputs. `Lifecycle.Step` models it that way.
- `_disconnect_consumers` always joins the queues it popped through `asyncio.wait`
  (`channels_demultiplexer/demultiplexer.py:149`, `:153`). `asyncio.wait` raises
  `ValueError("Set of coroutines/Futures is empty.")` when it is given nothing to wait for.
  So every disconnect raises once no stream is accepting any more. This happens with zero
  registered streams, and on the second of two disconnects. The message text is the one
  asyncio uses up to Python 3.10. The model keeps this behaviour; see "## Findings".

## Model

| member | source | states |
|---|---|---|
| Json.UnhashableTypeName | channels_demultiplexer/demultiplexer.py:78-80 | a list stream value is reported as type `list`, a dict as `dict`, and nothing else is unhashable |
| Envelope.Wrap | channels_demultiplexer/demultiplexer.py:123-129 | the outbound envelope has exactly the two configured fields, carries the content under the payload key and, when the keys differ, the stream under the multiplex key |
| Envelope.Unwrap | channels_demultiplexer/demultiplexer.py:72-76 | a frame is accepted exactly when it is an object holding both configured fields, and then it yields those two fields' values |
| Envelope.UnwrapWrap | channels_demultiplexer/demultiplexer.py:119-129 | with distinct field names, unwrapping a wrapped message gives back its stream and payload |
| Envelope.WrapUnwrap | channels_demultiplexer/demultiplexer.py:72-80 | a frame with exactly the two fields and a string stream is the wrapping of what it unwraps to |
| Envelope.SharedKeyLosesStream | channels_demultiplexer/demultiplexer.py:124-127 | if both field names are configured equal, the later dict entry wins and the stream is lost |
| Queues.Empty | channels_demultiplexer/queue.py:6 | a new queue is empty and keeps the invariant, and `join` passes at once |
| Queues.Put | channels_demultiplexer/queue.py:6 | put never fails and never waits (no maxsize); it appends at the tail, leaves earlier items in order, adds one unfinished task, keeps the invariant and makes `join` wait |
| Queues.TaskDone | channels_demultiplexer/queue.py:17 | task_done lowers the unfinished count by one; it raises ValueError exactly when the count is already zero |
| Queues.Get | channels_demultiplexer/queue.py:11-18 | get returns the head and leaves the rest in order with one fewer unfinished task; on a queue keeping the invariant it never raises and keeps the invariant |
| Queues.JoinReadyIffEmpty | channels_demultiplexer/queue.py:15-17 | because get marks items done at once, the join barrier passes exactly when the queue is empty |
| Queues.RunIsFifo | channels_demultiplexer/queue.py:11-18 | under any interleaving of puts and gets, the items got followed by those left are the initial items followed by the items put, in order |
| Queues.DrainAll | channels_demultiplexer/queue.py:11-18 | a consumer that gets until the queue is empty receives every queued item in order, after which join passes |
| Demultiplexer.New | channels_demultiplexer/demultiplexer.py:29-44 | construction makes one consumer and one empty queue per entry of consumer_classes; the queue keys equal the consumer keys, and all streams accept |
| Demultiplexer.Connect | channels_demultiplexer/demultiplexer.py:59-66 | connect puts exactly one connect message on every accepting stream's queue, changes no other queue, and accepts the socket exactly once |
| Demultiplexer.ReceiveJson | channels_demultiplexer/demultiplexer.py:68-98 | a non-object or a frame missing a field raises the no channel/payload key ValueError; an unhashable stream raises TypeError; a hashable stream that is not accepting raises the stream not mapped ValueError; otherwise exactly that stream's queue gets one receive message with the encoded payload, and nothing else changes |
| Demultiplexer.DisconnectAll | channels_demultiplexer/demultiplexer.py:137-147 | every accepting stream gets the disconnect message once; streams already disconnected get nothing; afterwards no stream accepts |
| Demultiplexer.JoinQueues | channels_demultiplexer/demultiplexer.py:151-156 | the join raises ValueError exactly when it is given no queue; otherwise it completes, whether by joining or by timeout |
| Demultiplexer.DisconnectConsumers | channels_demultiplexer/demultiplexer.py:137-149 | when some stream accepts, each of them gets the message once, all stop accepting and nothing else changes; when none accepts, it raises the empty-wait ValueError |
| Demultiplexer.DisconnectConsumersLoop | channels_demultiplexer/demultiplexer.py:141-149 | the source's loop (pop the stream, then put the message, one stream at a time, then join) gives the same result as the all-at-once disconnect, including the raise |
| Demultiplexer.Close | channels_demultiplexer/demultiplexer.py:100-107 | close puts a disconnect message carrying the code on every accepting stream, stops all acceptance, and only then sends the close frame; with no accepting stream it raises and sends no close frame |
| Demultiplexer.WebsocketDisconnect | channels_demultiplexer/demultiplexer.py:109-114 | the client's disconnect message itself is forwarded once to every accepting stream, and afterwards no stream accepts; with no accepting stream it raises |
| Demultiplexer.SendJsonMultiplexed | channels_demultiplexer/demultiplexer.py:119-129 | a child's send appends one frame that, with distinct keys, unwraps to the child's stream and content; without close nothing else changes; with close the router's close(True) follows, disconnecting every stream and sending a close frame while config and consumers stay the same, or raising if no stream accepts |
| Demultiplexer.AcceptMultiplexed | channels_demultiplexer/demultiplexer.py:131-135 | a child's accept changes nothing at all, so it sends no accept frame |
| Demultiplexer.ChildGet | channels_demultiplexer/demultiplexer.py:50-53 | a child reading its own queue gets the head of that queue only; on a valid router this never raises |
| Demultiplexer.JoinSatisfiedIffEmpty | channels_demultiplexer/demultiplexer.py:152-156 | the join over a set of streams is satisfied exactly when all their queues are empty |
| Demultiplexer.ConnectFirst | channels_demultiplexer/demultiplexer.py:59-64 | right after construction, connect is the one and only item of every stream's queue |
| Demultiplexer.NothingAcceptedAfterDisconnect | channels_demultiplexer/demultiplexer.py:77-84 | after a disconnect, every well-formed frame with a hashable stream value fails with stream not mapped |
| Demultiplexer.JoinWaitsForDisconnect | channels_demultiplexer/demultiplexer.py:144-153 | right after a successful disconnect, the join over the disconnected streams waits until each child has taken its disconnect message; with no accepting stream the disconnect raises instead of passing |
| Demultiplexer.SendReceiveRoundTrip | channels_demultiplexer/demultiplexer.py:119-129 | a child of an accepting stream can always send; the frame it sends, fed back to receive_json, puts the encoded content on that stream's queue and nowhere else |
| Demultiplexer.CloseThenDisconnectRaises | channels_demultiplexer/demultiplexer.py:100-117 | as written, after a close the client's websocket.disconnect puts nothing but raises the empty-wait ValueError |
| Demultiplexer.ZeroStreamCloseRaises | channels_demultiplexer/demultiplexer.py:137-156 | as written, closing a router with no registered streams raises, and no close frame is sent |
| Demultiplexer.DisconnectConsumersIntended | channels_demultiplexer/demultiplexer.py:137-149 | the intended disconnect never raises; it puts the message once on each accepting stream, stops all acceptance, and agrees with the as-written one whenever some stream accepts |
| Demultiplexer.CloseIntended | channels_demultiplexer/demultiplexer.py:100-107 | the intended close always tells the accepting streams and then sends the close frame, and agrees with the as-written close whenever some stream accepts |
| Demultiplexer.IntendedDisconnectIdempotent | channels_demultiplexer/demultiplexer.py:141-149 | with the intended disconnect, a second disconnect succeeds and changes nothing |
| Demultiplexer.IntendedCloseThenDisconnect | channels_demultiplexer/demultiplexer.py:100-114 | with the intended disconnect, close sends the close frame even with no streams left, and the client's later disconnect ends cleanly |
| Lifecycle.Step | channels_demultiplexer/demultiplexer.py:59-135 | every input keeps the router well-formed and valid, never re-opens a stream, and never changes the consumers or the config; a server close or client disconnect raises exactly when no stream accepts; on a valid router nothing else raises except an inbound frame; a child's send always sends its frame, which unwraps to the child's stream and content, and never stops the router, because a raising close ends only the child's task |
| Lifecycle.LateChildCloseKeepsFrame | channels_demultiplexer/demultiplexer.py:46-57 | a child's send with close once no stream accepts leaves its frame sent and nothing else changed, and the inputs that follow it are still run |
| Lifecycle.Run | channels_demultiplexer/demultiplexer.py:46-135 | any sequence of inputs keeps the router well-formed, only ever shrinks the accepting set, and never changes the consumers or the config |
| Lifecycle.RunValid | channels_demultiplexer/queue.py:11-18 | every queue keeps the unfinished-equals-queued invariant along any run |
| Lifecycle.StepDetachedOnlyDrains | channels_demultiplexer/demultiplexer.py:144-147 | one step can only take from the front of the queue of a stream that no longer accepts |
| Lifecycle.RunDetachedOnlyDrains | channels_demultiplexer/demultiplexer.py:144-147 | along any run, nothing is ever put again on the queue of a stream that no longer accepts |
| Lifecycle.NoMessageAfterDisconnect | channels_demultiplexer/demultiplexer.py:137-147 | after a disconnect, the disconnect message stays the last item a disconnected stream ever gets |
| Lifecycle.StepAccepts | channels_demultiplexer/demultiplexer.py:131-135 | only the router's connect adds an accept frame; a child's accept or any other input adds none |
| Lifecycle.AcceptedOnlyByRouter | channels_demultiplexer/demultiplexer.py:41-42 | along any run, the socket is accepted at most once per router connect, however often children call accept |
| Lifecycle.ClosedStaysClosed | channels_demultiplexer/demultiplexer.py:77-84 | after a disconnect, no later input re-opens any stream, so every later well-formed frame fails with stream not mapped |
| Scenarios.MissingKeysRejected | tests/tests.py:26-53 | frames lacking the stream or the payload field raise the exact no channel/payload key message |
| Scenarios.UnknownStreamRejected | tests/tests.py:56-68 | a well-formed frame for an unregistered stream raises the exact stream not mapped message |
| Scenarios.ConfiguredKeysUsed | tests/tests.py:163-193 | with multiplex key "type" or payload key "body", the default-shaped frame is malformed |
| Scenarios.EchoConnectDisconnect | tests/tests.py:9-23 | connect then disconnect: the socket is accepted once, echo's queue holds connect then the disconnect message, and echo no longer accepts |
| Scenarios.EchoExchange | tests/tests.py:140-159 | the socket is accepted once; the echo frame is queued behind connect; the echo reply goes out as `{"stream": "echo", "payload": {"success": true}}` |

## Findings

| source | as written | input that shows it | evidently intended | confidence | as-written member | corrected member |
|---|---|---|---|---|---|---|
| channels_demultiplexer/demultiplexer.py:137-156 | `_disconnect_consumers` always awaits `asyncio.wait` over the queues it popped, and `asyncio.wait` raises ValueError on an empty list | `close()` followed by the client's `websocket.disconnect` (the usual end of a server-initiated close); or `close()` with `consumer_classes = {}` | a disconnect with nothing left to disconnect completes at once and changes nothing; `close` then still closes the socket and `websocket_disconnect` still stops cleanly | medium, not executed | Demultiplexer.CloseThenDisconnectRaises | Demultiplexer.IntendedDisconnectIdempotent |

`Demultiplexer.ZeroStreamCloseRaises` shows the zero-stream case as written.
`Demultiplexer.IntendedCloseThenDisconnect` proves the intended behaviour for it.
`DisconnectConsumersIntended` and `CloseIntended` hold the corrected definitions. The
lifecycle (`Lifecycle.Step`) keeps the as-written `Close` and `WebsocketDisconnect`, so that
its run lemmas describe the program as it stands.

## Left out

- `__call__` and `_join_queues`: the `asyncio.wait` fan-out and the 5-second close timeout
  (`CONSUMER_CLOSE_TIMEOUT`) are concurrency and wall-clock time. The join is modelled only
  as the predicate `JoinSatisfied` (every queue's unfinished count is zero). From `__call__`
  the model keeps one thing: each child receives through its own queue's `get` (line 52).
  That is `ChildGet`. A `Lifecycle` run interleaves the router's and the children's inputs
  one whole handler call at a time.
- Demultiplexer.Close and Demultiplexer.WebsocketDisconnect: the disconnect messages, the
  join and (for `Close`) the close frame are one step, so nothing a child does while `close`
  waits at `channels_demultiplexer/demultiplexer.py:149` falls inside it. Only the timeout
  outcome of the join is modelled: the close frame goes out with the queues still unjoined.
  A frame a child sends while the join waits can therefore never come before the close frame
  in `sent`, although in the program it does.
- The child consumers' own handlers, and the ASGI plumbing of the framework base class
  (`super().__init__`, `super().__call__`, the real `send`). Consumers are opaque handles.
  Only `super().connect()` and `super().close(code)` appear, as one frame each.
- `StopConsumer`, raised at the end of `websocket_disconnect`: it is a control-flow signal to
  the host, not router state. A `Success` of `WebsocketDisconnect` stands for it.
- The Channels base class is not part of this model. Two of its behaviours are assumed:
  `send(..., close=True)` calls `self.close(True)`, and `accept` sends one accept frame.
  `close(True)` is recorded as `CloseFrame(TrueCode)`; the framework turns it into a close
  without a code.
- Python 3.11 and later: `asyncio.wait` there refuses bare coroutines such as the `join()`
  calls at `channels_demultiplexer/demultiplexer.py:154`, and its empty-wait message reads
  "Set of Tasks/Futures is empty.". The model follows the behaviour up to Python 3.10.
- JSON serialisation (`encode_json`, `send_json`'s encoding): it is library code. The encoder
  is a parameter, and sent frames hold the content before encoding.
- Settings loading (`conf.py`, `apps.py`): the field names are a `Config` value. The
  defaults `"stream"`/`"payload"` are `Envelope.Default`.
- The manage-envelope setting: the tests set it, but the code never reads it and always
  strips and re-wraps. No transparent mode is modelled, so the expectations of
  `test_receive_json_manage_envelope_false` and `test_send_json_manage_envelope_false` have
  no counterpart here.
- Json: JSON numbers are integers here. Floats would only matter for hashability, and a
  float is hashable like an integer.
- Lifecycle.Run: a child input naming a stream with no consumer cannot occur in the source.
  In a run it is a step that changes nothing. A step that raises ends the run, although in
  the program an exception from `receive_json` or a disconnect ends only the router's own
  task: `__call__` waits for all tasks, so the children keep taking items and sending frames.
  After a successful client disconnect the `StopConsumer` at line 117 ends the router's
  inbound loop, but a run still accepts router inputs after it. A child's own `close()` and
  raw `send()`, which reach the shared `send` directly, are not inputs of a run.
- Lifecycle.AcceptedOnlyByRouter: states "at most one accept per connect", not equality. A
  run that fails early may stop before a later connect.

=== FILE: demultiplexer.dfy ===
/** The WebSocket (de)multiplexer: routes inbound envelopes to per-stream input queues,
    broadcasts connect and disconnect to every stream, and wraps what a child consumer sends
    in an envelope tagged with its stream. Each transition is a pure function of the router's
    state and its input. */
module Demultiplexer {
  import opened Wrappers
  import opened Exceptions
  import opened Json
  import opened Envelope
  import opened Queues

  /** The `code` argument of `close`: Python's None, an integer, or `True`, which the
      framework's `send(..., close=True)` passes on to `close`. */
  datatype CloseCode = NoCode | IntCode(value: int) | TrueCode

  /** A message put on a child consumer's input queue. */
  datatype Message =
    | ConnectMessage                      // {"type": "websocket.connect"}
    | ReceiveMessage(text: string)        // {"type": "websocket.receive", "text": ...}
    | DisconnectMessage(code: CloseCode)  // {"type": "websocket.disconnect", "code": ...}

  /** What the router hands to the shared socket. */
  datatype Frame =
    | AcceptFrame
    | JsonFrame(content: Json)
    | CloseFrame(code: CloseCode)

  /** A child consumer class; the router never looks inside it. */
  datatype Consumer = Consumer(name: string)

  type Inboxes = map<string, MessageQueue<Message>>

  /** The router's state: the envelope field names, the consumer of every stream, the input
      queue of every stream, the streams that still accept messages (the keys of the source's
      `_input_queues`), and the frames sent on the socket so far. */
  datatype Router = Router(
    config: Config,
    consumers: map<string, Consumer>,
    inboxes: Inboxes,
    accepting: set<string>,
    sent: seq<Frame>)

  /** Every stream has one consumer and one queue, and only such streams accept. */
  predicate WellFormed(r: Router) {
    r.inboxes.Keys == r.consumers.Keys && r.accepting <= r.inboxes.Keys
  }

  /** A well-formed router whose queues all keep their invariant. */
  predicate Valid(r: Router) {
    WellFormed(r) && forall s :: s in r.inboxes ==> Queues.Valid(r.inboxes[s])
  }

  /** `after` is `before` with `msg` put once on the queue of each stream in `streams`;
      every other queue is the same. */
  predicate AppendedTo(before: Inboxes, after: Inboxes, streams: set<string>, msg: Message) {
    && after.Keys == before.Keys
    && forall s :: s in before ==> after[s] == if s in streams then Put(before[s], msg) else before[s]
  }

  /** Puts `msg` on the queue of every stream in `streams`. */
  function AppendTo(inboxes: Inboxes, streams: set<string>, msg: Message): (after: Inboxes)
    ensures AppendedTo(inboxes, after, streams, msg)
  {
    map s | s in inboxes :: if s in streams then Put(inboxes[s], msg) else inboxes[s]
  }

  /** The number of times the socket was accepted. */
  function CountAccepts(sent: seq<Frame>): nat
  {
    if |sent| == 0 then 0
    else (if sent[|sent| - 1].AcceptFrame? then 1 else 0) + CountAccepts(sent[..|sent| - 1])
  }

  /** Sending one frame accepts the socket once more exactly when that frame is the accept. */
  lemma CountAcceptsAppend(sent: seq<Frame>, f: Frame)
    ensures CountAccepts(sent + [f]) == CountAccepts(sent) + (if f.AcceptFrame? then 1 else 0)
  {
    assert (sent + [f])[..|sent|] == sent;
  }

  /** `__init__`: one consumer and one empty input queue per entry of `consumer_classes`;
      every stream accepts and nothing has been sent. */
  function New(config: Config, consumerClasses: map<string, Consumer>): (r: Router)
    ensures Valid(r)
    ensures r.config == config && r.consumers == consumerClasses
    ensures r.inboxes.Keys == consumerClasses.Keys && r.accepting == consumerClasses.Keys
    ensures forall s :: s in r.inboxes ==> |r.inboxes[s].items| == 0 && JoinReady(r.inboxes[s])
    ensures r.sent == []
  {
    Router(config, consumerClasses, map s | s in consumerClasses :: Empty(), consumerClasses.Keys, [])
  }

  /** `connect`: a connect message on the queue of every stream still accepting, then the
      socket is accepted, once, by the router itself. */
  function Connect(r: Router): (r': Router)
    ensures AppendedTo(r.inboxes, r'.inboxes, r.accepting, ConnectMessage)
    ensures r'.sent == r.sent + [AcceptFrame]
    ensures CountAccepts(r'.sent) == CountAccepts(r.sent) + 1
    ensures r'.(inboxes := r.inboxes, sent := r.sent) == r
    ensures Valid(r) ==> Valid(r')
  {
    CountAcceptsAppend(r.sent, AcceptFrame);
    r.(inboxes := AppendTo(r.inboxes, r.accepting, ConnectMessage), sent := r.sent + [AcceptFrame])
  }

  /** The stream value of a well-formed frame routes to `stream` when it is that string and
      the stream still accepts. Only strings are keys of the queue map. */
  predicate Routes(r: Router, key: Json) {
    key.JString? && key.str in r.accepting
  }

  /** `receive_json`: check the envelope, look the stream up among the accepting ones, and put
      the encoded payload on its queue. A malformed frame and an unknown stream raise their
      ValueErrors; a list or dict as stream value makes the dict lookup raise a TypeError.
      A raised exception leaves every queue as it was. */
  function ReceiveJson(r: Router, encode: Json -> string, content: Json): (res: Result<Router, Error>)
    requires WellFormed(r)
    ensures !IsEnvelope(r.config, content) ==> res == Failure(ValueError(NoChannelPayloadKey))
    ensures IsEnvelope(r.config, content) ==>
      var key := content.fields[r.config.multiplexKey];
      && (!IsHashable(key) ==> res == Failure(TypeError("unhashable type: '" + UnhashableTypeName(key) + "'")))
      && (IsHashable(key) && !Routes(r, key) ==> res == Failure(ValueError(StreamNotMapped)))
    ensures res.Success? <==> IsEnvelope(r.config, content) && Routes(r, content.fields[r.config.multiplexKey])
    ensures res.Success? ==>
      var payload := content.fields[r.config.payloadKey];
      && AppendedTo(r.inboxes, res.value.inboxes, {content.fields[r.config.multiplexKey].str}, ReceiveMessage(encode(payload)))
      && res.value.(inboxes := r.inboxes) == r
    ensures res.Success? && Valid(r) ==> Valid(res.value)
  {
    match Unwrap(r.config, content)
    case None => Failure(ValueError(NoChannelPayloadKey))
    case Some((key, payload)) =>
      if !IsHashable(key) then
        Failure(TypeError("unhashable type: '" + UnhashableTypeName(key) + "'"))
      else if !Routes(r, key) then
        Failure(ValueError(StreamNotMapped))
      else
        var q := r.inboxes[key.str];
        Success(r.(inboxes := r.inboxes[key.str := Put(q, ReceiveMessage(encode(payload)))]))
  }

  /** The pop-and-put part of `_disconnect_consumers`, all at once: every accepting stream
      stops accepting and gets `msg` on its queue; streams that no longer accepted get nothing. */
  function DisconnectAll(r: Router, msg: Message): (r': Router)
    ensures AppendedTo(r.inboxes, r'.inboxes, r.accepting, msg)
    ensures r'.accepting == {}
    ensures r'.(inboxes := r.inboxes, accepting := r.accepting) == r
    ensures Valid(r) ==> Valid(r')
  {
    r.(inboxes := AppendTo(r.inboxes, r.accepting, msg), accepting := {})
  }

  /** `_join_queues(queues)`: `asyncio.wait` over the queues' `join()`. Given no queue at all,
      `asyncio.wait` raises a ValueError; otherwise it returns once every queue has joined or
      the timeout has elapsed, two outcomes this model does not tell apart. */
  function JoinQueues(streams: set<string>): (o: Outcome<Error>)
    ensures o.Fail? <==> streams == {}
    ensures o.Fail? ==> o.error == ValueError(WaitOnEmpty)
  {
    if streams == {} then Fail(ValueError(WaitOnEmpty)) else Pass
  }

  /** `_disconnect_consumers(message)`: pop every accepting stream and put `msg` on its queue,
      then join the queues popped. When no stream was accepting, the join raises. */
  function DisconnectConsumers(r: Router, msg: Message): (res: Result<Router, Error>)
    ensures res.Failure? <==> r.accepting == {}
    ensures res.Failure? ==> res.error == ValueError(WaitOnEmpty)
    ensures res.Success? ==>
      && AppendedTo(r.inboxes, res.value.inboxes, r.accepting, msg)
      && res.value.accepting == {}
      && res.value.(inboxes := r.inboxes, accepting := r.accepting) == r
    ensures res.Success? && Valid(r) ==> Valid(res.value)
  {
    var popped := DisconnectAll(r, msg);
    match JoinQueues(r.accepting)
    case Fail(e) => Failure(e)
    case Pass => Success(popped)
  }

  /** `_disconnect_consumers` as the source runs it: for each accepting stream in turn, pop it
      from the accepting map so that no new message can be put, then put `msg` on its queue;
      finally join the queues popped. The loop ends as the all-at-once transition does. */
  method DisconnectConsumersLoop(r: Router, msg: Message) returns (res: Result<Router, Error>)
    requires WellFormed(r)
    ensures res == DisconnectConsumers(r, msg)
  {
    var streams := r.accepting;
    var popped := streams;
    var r' := r;
    while streams != {}
      invariant streams <= r.accepting
      invariant r'.accepting == streams
      invariant r'.inboxes == AppendTo(r.inboxes, r.accepting - streams, msg)
      invariant r'.(inboxes := r.inboxes, accepting := r.accepting) == r
      decreases streams
    {
      var s :| s in streams;
      var done := r.accepting - streams;
      r' := r'.(accepting := r'.accepting - {s}, inboxes := r'.inboxes[s := Put(r'.inboxes[s], msg)]);
      streams := streams - {s};
      assert r.accepting - streams == done + {s};
      assert r'.inboxes == AppendTo(r.inboxes, done + {s}, msg);
    }
    assert r' == DisconnectAll(r, msg);
    match JoinQueues(popped)
    case Fail(e) => res := Failure(e);
    case Pass => res := Success(r');
  }

  /** `close(code)`: the children are told first, with a disconnect message carrying the code,
      and only then is the socket closed. When no stream accepts any more, the disconnect
      raises and the socket is not closed. */
  function Close(r: Router, code: CloseCode): (res: Result<Router, Error>)
    ensures res.Failure? <==> r.accepting == {}
    ensures res.Failure? ==> res.error == ValueError(WaitOnEmpty)
    ensures res.Success? ==>
      && AppendedTo(r.inboxes, res.value.inboxes, r.accepting, DisconnectMessage(code))
      && res.value.accepting == {}
      && res.value.sent == r.sent + [CloseFrame(code)]
      && CountAccepts(res.value.sent) == CountAccepts(r.sent)
      && res.value.(inboxes := r.inboxes, accepting := r.accepting, sent := r.sent) == r
    ensures res.Success? && Valid(r) ==> Valid(res.value)
  {
    var d :- DisconnectConsumers(r, DisconnectMessage(code));
    CountAcceptsAppend(r.sent, CloseFrame(code));
    Success(d.(sent := d.sent + [CloseFrame(code)]))
  }

  /** `websocket_disconnect(message)`: the client's disconnect message itself is forwarded to
      every stream still accepting; when none is left, the disconnect raises. */
  function WebsocketDisconnect(r: Router, message: Message): (res: Result<Router, Error>)
    ensures res.Failure? <==> r.accepting == {}
    ensures res.Failure? ==> res.error == ValueError(WaitOnEmpty)
    ensures res.Success? ==>
      && AppendedTo(r.inboxes, res.value.inboxes, r.accepting, message)
      && res.value.accepting == {}
      && res.value.(inboxes := r.inboxes, accepting := r.accepting) == r
    ensures res.Success? && Valid(r) ==> Valid(res.value)
  {
    DisconnectConsumers(r, message)
  }

  /** `_send_json_multiplexed(stream, content, close)`: one frame is sent, an envelope that
      unwraps to `stream` and `content` when the field names differ. With `close`, the
      router's own `send` then calls the router's `close(True)`, which disconnects every
      stream and closes the socket (or raises when no stream accepts). */
  function SendJsonMultiplexed(r: Router, stream: string, content: Json, close: bool): (res: Result<Router, Error>)
    ensures !close ==> res.Success?
    ensures close ==> (res.Failure? <==> r.accepting == {})
    ensures res.Failure? ==> res.error == ValueError(WaitOnEmpty)
    ensures res.Success? ==>
      && |res.value.sent| > |r.sent|
      && res.value.sent[..|r.sent|] == r.sent
      && res.value.sent[|r.sent|].JsonFrame?
      && IsEnvelope(r.config, res.value.sent[|r.sent|].content)
      && (r.config.DistinctKeys() ==>
            Unwrap(r.config, res.value.sent[|r.sent|].content) == Some((JString(stream), content)))
      && CountAccepts(res.value.sent) == CountAccepts(r.sent)
    ensures res.Success? && !close ==> |res.value.sent| == |r.sent| + 1 && res.value.(sent := r.sent) == r
    ensures res.Success? && close ==>
      && |res.value.sent| == |r.sent| + 2
      && res.value.sent[|r.sent| + 1] == CloseFrame(TrueCode)
      && AppendedTo(r.inboxes, res.value.inboxes, r.accepting, DisconnectMessage(TrueCode))
      && res.value.accepting == {}
      && res.value.(inboxes := r.inboxes, accepting := r.accepting, sent := r.sent) == r
    ensures res.Success? && Valid(r) ==> Valid(res.value)
  {
    var frame := JsonFrame(Wrap(r.config, stream, content));
    var r1 := r.(sent := r.sent + [frame]);
    CountAcceptsAppend(r.sent, frame);
    assert r1.sent[..|r.sent|] == r.sent;
    if close then
      var res := Close(r1, TrueCode);
      assert res.Success? ==> res.value.sent[..|r.sent|] == r.sent && res.value.sent[|r.sent|] == frame;
      res
    else
      Success(r1)
  }

  /** `_accept_multiplexed`: a child's accept is a no-op, so the socket is accepted only by the
      router. */
  function AcceptMultiplexed(r: Router): (r': Router)
    ensures r' == r
    ensures CountAccepts(r'.sent) == CountAccepts(r.sent)
  {
    r
  }

  /** A child consumer's receive: `get` on its own queue, which it keeps reading after its
      stream stopped accepting. Waiting is the precondition that the queue is not empty. */
  function ChildGet(r: Router, stream: string): (res: Result<(Message, Router), Error>)
    requires stream in r.inboxes && |r.inboxes[stream].items| > 0
    ensures res.Failure? <==> r.inboxes[stream].unfinished == 0
    ensures res.Success? ==>
      && res.value.0 == r.inboxes[stream].items[0]
      && res.value.1.inboxes.Keys == r.inboxes.Keys
      && res.value.1.inboxes[stream].items == r.inboxes[stream].items[1..]
      && (forall t :: t in r.inboxes && t != stream ==> res.value.1.inboxes[t] == r.inboxes[t])
      && res.value.1.(inboxes := r.inboxes) == r
    ensures Valid(r) ==> res.Success? && Valid(res.value.1)
  {
    match Get(r.inboxes[stream])
    case Failure(e) => Failure(e)
    case Success((m, q)) => Success((m, r.(inboxes := r.inboxes[stream := q])))
  }

  /** `_join_queues`: every queue of `streams` lets `join()` return. */
  predicate JoinSatisfied(r: Router, streams: set<string>) {
    forall s :: s in streams ==> s in r.inboxes && JoinReady(r.inboxes[s])
  }

  /** On a valid router, the join of `streams` is satisfied exactly when their queues are empty. */
  lemma JoinSatisfiedIffEmpty(r: Router, streams: set<string>)
    requires Valid(r) && streams <= r.inboxes.Keys
    ensures JoinSatisfied(r, streams) <==> forall s :: s in streams ==> |r.inboxes[s].items| == 0
  {
  }

  /** Right after construction, connect is the only, hence first, item of every queue. */
  lemma ConnectFirst(config: Config, consumerClasses: map<string, Consumer>)
    ensures forall s :: s in consumerClasses ==>
      s in Connect(New(config, consumerClasses)).inboxes &&
      Connect(New(config, consumerClasses)).inboxes[s].items == [ConnectMessage]
  {
    var r := New(config, consumerClasses);
    var r' := Connect(r);
    forall s | s in consumerClasses
      ensures s in r'.inboxes && r'.inboxes[s].items == [ConnectMessage]
    {
      assert r'.inboxes[s] == Put(r.inboxes[s], ConnectMessage);
    }
  }

  /** After a disconnect, every well-formed frame with a hashable stream value is rejected as
      not mapped, whatever stream it names. */
  lemma NothingAcceptedAfterDisconnect(r: Router, msg: Message, encode: Json -> string, content: Json)
    requires WellFormed(r)
    requires IsEnvelope(r.config, content) && IsHashable(content.fields[r.config.multiplexKey])
    ensures ReceiveJson(DisconnectAll(r, msg), encode, content) == Failure(ValueError(StreamNotMapped))
  {
  }

  /** The join that follows a disconnect waits until each disconnected child has taken its
      disconnect message. It cannot pass at once: with no accepting stream there is nothing to
      join and `asyncio.wait` raises instead. */
  lemma JoinWaitsForDisconnect(r: Router, msg: Message)
    requires Valid(r)
    ensures r.accepting != {} ==>
      && DisconnectConsumers(r, msg).Success?
      && !JoinSatisfied(DisconnectConsumers(r, msg).value, r.accepting)
    ensures r.accepting == {} ==> DisconnectConsumers(r, msg) == Failure(ValueError(WaitOnEmpty))
  {
    if r.accepting != {} {
      var s :| s in r.accepting;
      assert !JoinReady(DisconnectConsumers(r, msg).value.inboxes[s]);
    }
  }

  /** Round trip: the frame a child of an accepting stream sends, fed back to `receive_json`,
      puts the encoded content on that child's own queue and on no other. */
  lemma SendReceiveRoundTrip(r: Router, encode: Json -> string, stream: string, content: Json, close: bool)
    requires WellFormed(r) && r.config.DistinctKeys() && stream in r.accepting
    ensures SendJsonMultiplexed(r, stream, content, close).Success?
    ensures var frame := SendJsonMultiplexed(r, stream, content, close).value.sent[|r.sent|];
      ReceiveJson(r, encode, frame.content)
        == Success(r.(inboxes := r.inboxes[stream := Put(r.inboxes[stream], ReceiveMessage(encode(content)))]))
  {
    var frame := SendJsonMultiplexed(r, stream, content, close).value.sent[|r.sent|];
    UnwrapWrap(r.config, stream, content);
    assert Unwrap(r.config, frame.content) == Some((JString(stream), content));
  }

  /** As written, a second disconnect puts nothing but raises: after `close`, the client's
      `websocket.disconnect` ends in a ValueError instead of a clean stop. */
  lemma CloseThenDisconnectRaises(r: Router, code: CloseCode, message: Message)
    requires WellFormed(r)
    ensures Close(r, code).Success? ==>
      && DisconnectAll(Close(r, code).value, message).inboxes == Close(r, code).value.inboxes
      && WebsocketDisconnect(Close(r, code).value, message) == Failure(ValueError(WaitOnEmpty))
  {
    if Close(r, code).Success? {
      var c := Close(r, code).value;
      assert AppendTo(c.inboxes, {}, message) == c.inboxes;
    }
  }

  /** As written, closing a router that has no streams raises, and the socket is not closed. */
  lemma ZeroStreamCloseRaises(config: Config, code: CloseCode)
    ensures Close(New(config, map[]), code) == Failure(ValueError(WaitOnEmpty))
  {
  }

  /** What `_disconnect_consumers` evidently intends: join only when some queue was popped, so
      that a disconnect with nothing left to disconnect completes at once and changes nothing. */
  function DisconnectConsumersIntended(r: Router, msg: Message): (res: Result<Router, Error>)
    ensures res.Success?
    ensures AppendedTo(r.inboxes, res.value.inboxes, r.accepting, msg)
    ensures res.value.accepting == {}
    ensures res.value.(inboxes := r.inboxes, accepting := r.accepting) == r
    ensures r.accepting != {} ==> res == DisconnectConsumers(r, msg)
  {
    if r.accepting == {} then Success(r) else DisconnectConsumers(r, msg)
  }

  /** `close(code)` on top of the intended disconnect: the socket is always closed. */
  function CloseIntended(r: Router, code: CloseCode): (res: Result<Router, Error>)
    ensures res.Success?
    ensures AppendedTo(r.inboxes, res.value.inboxes, r.accepting, DisconnectMessage(code))
    ensures res.value.accepting == {}
    ensures res.value.sent == r.sent + [CloseFrame(code)]
    ensures r.accepting != {} ==> res == Close(r, code)
  {
    var d := DisconnectConsumersIntended(r, DisconnectMessage(code)).value;
    Success(d.(sent := d.sent + [CloseFrame(code)]))
  }

  /** With the intended disconnect, a second disconnect succeeds and changes nothing: `close`
      followed by the client's `websocket.disconnect` leaves the state `close` produced. */
  lemma IntendedDisconnectIdempotent(r: Router, first: Message, second: Message)
    ensures var once := DisconnectConsumersIntended(r, first).value;
      DisconnectConsumersIntended(once, second) == Success(once)
  {
  }

  /** With the intended disconnect, closing a router that has no streams completes at once and
      closes the socket; close followed by the client's disconnect ends cleanly. */
  lemma IntendedCloseThenDisconnect(r: Router, code: CloseCode, message: Message)
    ensures var c := CloseIntended(r, code).value;
      && c.sent[|c.sent| - 1] == CloseFrame(code)
      && DisconnectConsumersIntended(c, message) == Success(c)
  {
  }
}

=== FILE: envelope.dfy ===
/** The two-field envelope `{multiplexKey: stream, payloadKey: payload}` and its configuration. */
module Envelope {
  import opened Wrappers
  import opened Json

  /** The two configured envelope field names. */
  datatype Config = Config(multiplexKey: string, payloadKey: string) {
    /** The field names can carry a stream and a payload side by side. */
    predicate DistinctKeys() {
      multiplexKey != payloadKey
    }
  }

  /** The configuration used when the settings do not override it. */
  const Default: Config := Config("stream", "payload")

  /** `content` is an object that carries both configured fields. */
  predicate IsEnvelope(cfg: Config, content: Json) {
    content.JObject? && cfg.multiplexKey in content.fields && cfg.payloadKey in content.fields
  }

  /** The envelope an outbound message of `stream` is wrapped in. When both names are equal,
      the later entry of the dict display wins, as in Python. */
  function Wrap(cfg: Config, stream: string, payload: Json): (m: Json)
    ensures IsEnvelope(cfg, m)
    ensures m.fields.Keys == {cfg.multiplexKey, cfg.payloadKey}
    ensures m.fields[cfg.payloadKey] == payload
    ensures cfg.DistinctKeys() ==> m.fields[cfg.multiplexKey] == JString(stream)
  {
    JObject(map[cfg.multiplexKey := JString(stream), cfg.payloadKey := payload])
  }

  /** The stream value and payload of an inbound frame, or None for a malformed one. The stream
      value is whatever JSON the client put there; it need not be a string. */
  function Unwrap(cfg: Config, content: Json): (r: Option<(Json, Json)>)
    ensures r.Some? <==> IsEnvelope(cfg, content)
    ensures r.Some? ==> r.value.0 == content.fields[cfg.multiplexKey]
    ensures r.Some? ==> r.value.1 == content.fields[cfg.payloadKey]
  {
    if IsEnvelope(cfg, content) then
      Some((content.fields[cfg.multiplexKey], content.fields[cfg.payloadKey]))
    else
      None
  }

  /** Unwrapping a wrapped message gives back its stream and payload. */
  lemma UnwrapWrap(cfg: Config, stream: string, payload: Json)
    requires cfg.DistinctKeys()
    ensures Unwrap(cfg, Wrap(cfg, stream, payload)) == Some((JString(stream), payload))
  {
  }

  /** A frame with exactly the two envelope fields and a string stream is the wrapping of
      what it unwraps to. */
  lemma WrapUnwrap(cfg: Config, content: Json, stream: string, payload: Json)
    requires Unwrap(cfg, content) == Some((JString(stream), payload))
    requires content.fields.Keys == {cfg.multiplexKey, cfg.payloadKey}
    ensures Wrap(cfg, stream, payload) == content
  {
    var w := Wrap(cfg, stream, payload);
    assert w.fields == content.fields by {
      forall k | k in content.fields
        ensures w.fields[k] == content.fields[k]
      {
        if k == cfg.payloadKey {
        } else {
          assert k == cfg.multiplexKey;
        }
      }
    }
  }

  /** With one name configured for both fields, the stream is lost: the wrapped message
      unwraps to the payload twice. */
  lemma SharedKeyLosesStream(cfg: Config, stream: string, payload: Json)
    requires !cfg.DistinctKeys()
    ensures Unwrap(cfg, Wrap(cfg, stream, payload)) == Some((payload, payload))
  {
  }
}

=== FILE: exceptions.dfy ===
/** The Python exceptions the router and its queues can raise, with their literal messages. */
module Exceptions {

  /** A raised exception: its class and its message text. */
  datatype Error = ValueError(message: string) | TypeError(message: string)

  /** Message for a frame that is not an object or lacks one of the two envelope fields.
      The doubled asterisk is part of the wire contract and is kept verbatim. */
  const NoChannelPayloadKey: string := "Invalid multiplexed **frame received (no channel/payload key)"

  /** Message for a well-formed frame whose stream is not (or no longer) accepting. */
  const StreamNotMapped: string := "Invalid multiplexed frame received (stream not mapped)"

  /** Message `asyncio.wait` raises when given no awaitable at all. */
  const WaitOnEmpty: string := "Set of coroutines/Futures is empty."

  /** Message asyncio's queue raises when `task_done` outnumbers the items put. */
  const TaskDoneTooManyTimes: string := "task_done() called too many times"
}

=== FILE: json.dfy ===
/** Decoded JSON content, as the consumer receives it from `decode_json`. */
module Json {

  /** A JSON value. Numbers are integers here; object keys are strings, as in JSON. */
  datatype Json =
    | JNull
    | JBool(b: bool)
    | JNumber(n: int)
    | JString(str: string)
    | JArray(elems: seq<Json>)
    | JObject(fields: map<string, Json>)

  /** Whether the Python value decoded from `j` can be used as a dict key:
      lists and dicts cannot, every other JSON value can. */
  predicate IsHashable(j: Json) {
    !j.JArray? && !j.JObject?
  }

  /** The Python type name of an unhashable value, as it appears in the TypeError Python raises
      when such a value is used as a dict key. */
  function UnhashableTypeName(j: Json): (name: string)
    requires !IsHashable(j)
    ensures j.JArray? <==> name == "list"
    ensures j.JObject? <==> name == "dict"
  {
    if j.JArray? then "list" else "dict"
  }
}

=== FILE: lifecycle.dfy ===
/** The router over the life of one connection: the inputs modelled from the socket and from
    the child consumers, one step per input, and the invariants that hold along any run. */
module Lifecycle {
  import opened Wrappers
  import opened Exceptions
  import opened Json
  import Queues
  import opened Demultiplexer

  /** One modelled input to the router, from the socket or from the child consumer of a
      stream. A child's own `close` and raw `send` bypass the router and are not among them. */
  datatype Event =
    | Connected                                          // the socket opened
    | Received(content: Json)                            // a decoded text frame arrived
    | ServerClose(code: CloseCode)                       // the application closes the socket
    | ClientDisconnect(code: CloseCode)                  // a websocket.disconnect arrived
    | ChildSent(stream: string, content: Json, close: bool) // a child's patched send_json
    | ChildAccepted(stream: string)                      // a child's patched accept
    | ChildReceived(stream: string)                      // a child takes from its queue

  /** One step. A child's receive on an empty queue is still waiting and changes nothing;
      an input from a stream without a consumer cannot occur and changes nothing. An inbound
      frame can raise, and so can the server's close and the client's disconnect once no
      stream accepts any more. A child's send with `close` raises there too, but in that
      child's own task only: its frame has already gone out, and the router carries on. */
  function Step(r: Router, encode: Json -> string, e: Event): (res: Result<Router, Error>)
    requires WellFormed(r)
    ensures res.Success? ==> WellFormed(res.value)
    ensures res.Success? ==> res.value.accepting <= r.accepting
    ensures res.Success? ==> res.value.consumers == r.consumers && res.value.config == r.config
    ensures res.Success? && Valid(r) ==> Valid(res.value)
    ensures (e.ServerClose? || e.ClientDisconnect?) ==> (res.Failure? <==> r.accepting == {})
    ensures res.Failure? && Valid(r) ==>
      || e.Received?
      || (r.accepting == {} && (e.ServerClose? || e.ClientDisconnect?))
    ensures e.ChildSent? && e.stream in r.consumers ==>
      && res.Success?
      && |res.value.sent| > |r.sent|
      && res.value.sent[..|r.sent|] == r.sent
      && res.value.sent[|r.sent|].JsonFrame?
      && (r.config.DistinctKeys() ==>
            Envelope.Unwrap(r.config, res.value.sent[|r.sent|].content) == Some((JString(e.stream), e.content)))
  {
    match e
    case Connected => Success(Connect(r))
    case Received(content) => ReceiveJson(r, encode, content)
    case ServerClose(code) => Close(r, code)
    case ClientDisconnect(code) => WebsocketDisconnect(r, DisconnectMessage(code))
    case ChildSent(s, content, close) =>
      if s in r.consumers then
        match SendJsonMultiplexed(r, s, content, close)
        case Success(next) => Success(next)
        case Failure(_) => Success(SendJsonMultiplexed(r, s, content, false).value)
      else Success(r)
    case ChildAccepted(s) => Success(AcceptMultiplexed(r))
    case ChildReceived(s) =>
      if s in r.inboxes && |r.inboxes[s].items| > 0 then
        var got :- ChildGet(r, s);
        Success(got.1)
      else
        Success(r)
  }

  /** Runs the inputs in order. A step that raises is one taken by the router's own inbound
      loop (an inbound frame, the client's disconnect, or a close called from the router's own
      handlers), so it ends that loop and the state at that point is the final one; what the
      child consumers still do afterwards is not modelled. A child's failing send does not
      end the run (see `Step`). */
  function Run(r: Router, encode: Json -> string, events: seq<Event>): (r': Router)
    requires WellFormed(r)
    ensures WellFormed(r')
    ensures r'.accepting <= r.accepting
    ensures r'.consumers == r.consumers && r'.config == r.config
    decreases |events|
  {
    if |events| == 0 then r
    else match Step(r, encode, events[0])
      case Failure(_) => r
      case Success(next) => Run(next, encode, events[1..])
  }

  /** A child's send with `close` once no stream accepts: the router's `close` raises in that
      child's task, but the frame was sent before it, and the inputs after it are still run. */
  lemma LateChildCloseKeepsFrame(r: Router, encode: Json -> string, s: string, content: Json, rest: seq<Event>)
    requires WellFormed(r) && r.accepting == {} && s in r.consumers
    ensures var sentFrame := r.(sent := r.sent + [JsonFrame(Envelope.Wrap(r.config, s, content))]);
      && Step(r, encode, ChildSent(s, content, true)) == Success(sentFrame)
      && Run(r, encode, [ChildSent(s, content, true)] + rest) == Run(sentFrame, encode, rest)
  {
    assert ([ChildSent(s, content, true)] + rest)[1..] == rest;
  }

  /** `a` is what remains of `b` after items were taken from its front. */
  predicate IsSuffix(a: seq<Message>, b: seq<Message>) {
    |a| <= |b| && a == b[|b| - |a|..]
  }

  lemma SuffixTransitive(a: seq<Message>, b: seq<Message>, c: seq<Message>)
    requires IsSuffix(a, b) && IsSuffix(b, c)
    ensures IsSuffix(a, c)
  {
    assert c[|c| - |b|..][|b| - |a|..] == c[|c| - |a|..];
  }

  /** The invariant holds along every run from a valid state. */
  lemma {:induction false} RunValid(r: Router, encode: Json -> string, events: seq<Event>)
    requires Valid(r)
    ensures Valid(Run(r, encode, events))
    decreases |events|
  {
    if |events| > 0 {
      match Step(r, encode, events[0])
      case Failure(_) =>
      case Success(next) => RunValid(next, encode, events[1..]);
    }
  }

  /** A stream that no longer accepts never gets another message: a step can only take from
      the front of its queue. */
  lemma StepDetachedOnlyDrains(r: Router, encode: Json -> string, e: Event, s: string, next: Router)
    requires WellFormed(r) && s in r.inboxes && s !in r.accepting
    requires Step(r, encode, e) == Success(next)
    ensures s in next.inboxes
    ensures IsSuffix(next.inboxes[s].items, r.inboxes[s].items)
  {
    var items := r.inboxes[s].items;
    if e.ChildReceived? && e.stream == s && |items| > 0 {
      assert next.inboxes[s].items == items[1..];
      assert items[1..] == items[|items| - |items[1..]|..];
    } else {
      assert next.inboxes[s] == r.inboxes[s];
      assert items == items[|items| - |items|..];
    }
  }

  /** Along any run, the queue of a stream that no longer accepts only loses items from its
      front: nothing is ever put on it again. */
  lemma {:induction false} RunDetachedOnlyDrains(r: Router, encode: Json -> string, events: seq<Event>, s: string)
    requires WellFormed(r) && s in r.inboxes && s !in r.accepting
    ensures s in Run(r, encode, events).inboxes
    ensures IsSuffix(Run(r, encode, events).inboxes[s].items, r.inboxes[s].items)
    decreases |events|
  {
    if |events| > 0 {
      match Step(r, encode, events[0])
      case Failure(_) =>
      case Success(next) =>
        StepDetachedOnlyDrains(r, encode, events[0], s, next);
        RunDetachedOnlyDrains(next, encode, events[1..], s);
        SuffixTransitive(Run(next, encode, events[1..]).inboxes[s].items, next.inboxes[s].items, r.inboxes[s].items);
    }
  }

  /** The disconnect message is the last message a disconnected stream ever receives: whatever
      happens afterwards, its queue holds a tail of what it held before plus the disconnect
      message, which stays at the end. */
  lemma NoMessageAfterDisconnect(r: Router, encode: Json -> string, msg: Message, events: seq<Event>, s: string)
    requires WellFormed(r) && s in r.accepting
    ensures var final := Run(DisconnectAll(r, msg), encode, events);
      && s in final.inboxes
      && IsSuffix(final.inboxes[s].items, r.inboxes[s].items + [msg])
      && (|final.inboxes[s].items| > 0 ==> final.inboxes[s].items[|final.inboxes[s].items| - 1] == msg)
  {
    var d := DisconnectAll(r, msg);
    RunDetachedOnlyDrains(d, encode, events, s);
    assert d.inboxes[s].items == r.inboxes[s].items + [msg];
  }

  /** The number of `Connected` inputs. */
  function ConnectCount(events: seq<Event>): nat
  {
    if |events| == 0 then 0
    else (if events[0].Connected? then 1 else 0) + ConnectCount(events[1..])
  }

  /** Only the router's own connect accepts the socket; a child's accept sends nothing. */
  lemma StepAccepts(r: Router, encode: Json -> string, e: Event)
    requires WellFormed(r) && Step(r, encode, e).Success?
    ensures CountAccepts(Step(r, encode, e).value.sent)
      == CountAccepts(r.sent) + (if e.Connected? then 1 else 0)
  {
  }

  /** Along any run, the socket is accepted at most once per `connect` of the router, however
      often the children call accept. */
  lemma {:induction false} AcceptedOnlyByRouter(r: Router, encode: Json -> string, events: seq<Event>)
    requires WellFormed(r)
    ensures CountAccepts(Run(r, encode, events).sent) <= CountAccepts(r.sent) + ConnectCount(events)
    decreases |events|
  {
    if |events| > 0 {
      match Step(r, encode, events[0])
      case Failure(_) =>
      case Success(next) =>
        StepAccepts(r, encode, events[0]);
        AcceptedOnlyByRouter(next, encode, events[1..]);
    }
  }

  /** Once every stream is disconnected, no stream ever accepts again, so every later
      well-formed frame with a hashable stream value is rejected as not mapped. */
  lemma ClosedStaysClosed(r: Router, encode: Json -> string, msg: Message, events: seq<Event>, content: Json)
    requires WellFormed(r)
    requires Envelope.IsEnvelope(r.config, content) && IsHashable(content.fields[r.config.multiplexKey])
    ensures var final := Run(DisconnectAll(r, msg), encode, events);
      final.accepting == {} && ReceiveJson(final, encode, content) == Failure(ValueError(StreamNotMapped))
  {
  }
}

=== FILE: queues.dfy ===
/** The per-stream input queue: an unbounded asyncio queue whose `get` marks the item done
    as soon as it is removed. */
module Queues {
  import opened Wrappers
  import opened Exceptions

  /** The queued items, head first, and asyncio's count of unfinished tasks. */
  datatype MessageQueue<T> = MessageQueue(items: seq<T>, unfinished: nat)

  /** The invariant `get` keeps: every queued item is an unfinished task and no other is. */
  predicate Valid<T>(q: MessageQueue<T>) {
    q.unfinished == |q.items|
  }

  /** `join()` returns without waiting. */
  predicate JoinReady<T>(q: MessageQueue<T>) {
    q.unfinished == 0
  }

  /** A queue constructed without `maxsize`. */
  function Empty<T>(): (q: MessageQueue<T>)
    ensures Valid(q) && JoinReady(q)
    ensures |q.items| == 0
  {
    MessageQueue([], 0)
  }

  /** `put`: the queue is unbounded, so it never waits and never fails; the item goes to the
      tail, the items already queued stay in order, and one more task is unfinished. */
  function Put<T>(q: MessageQueue<T>, x: T): (r: MessageQueue<T>)
    ensures |r.items| == |q.items| + 1
    ensures r.items[..|q.items|] == q.items && r.items[|q.items|] == x
    ensures r.unfinished == q.unfinished + 1
    ensures Valid(q) ==> Valid(r)
    ensures !JoinReady(r)
  {
    MessageQueue(q.items + [x], q.unfinished + 1)
  }

  /** asyncio's `task_done`: one fewer unfinished task, or a ValueError when there is none. */
  function TaskDone<T>(q: MessageQueue<T>): (r: Result<MessageQueue<T>, Error>)
    ensures r.Failure? <==> q.unfinished == 0
    ensures r.Failure? ==> r.error == ValueError(TaskDoneTooManyTimes)
    ensures r.Success? ==> r.value.items == q.items && r.value.unfinished + 1 == q.unfinished
  {
    if q.unfinished == 0 then Failure(ValueError(TaskDoneTooManyTimes))
    else Success(q.(unfinished := q.unfinished - 1))
  }

  /** `MessageQueue.get`: remove the head, then mark it done. Waiting for an item is the
      precondition that the queue is not empty. */
  function Get<T>(q: MessageQueue<T>): (r: Result<(T, MessageQueue<T>), Error>)
    requires |q.items| > 0
    ensures r.Failure? <==> q.unfinished == 0
    ensures r.Success? ==> r.value.0 == q.items[0] && r.value.1.items == q.items[1..]
    ensures r.Success? ==> r.value.1.unfinished + 1 == q.unfinished
    ensures Valid(q) ==> r.Success? && Valid(r.value.1)
  {
    var removed := q.(items := q.items[1..]);
    match TaskDone(removed)
    case Success(q') => Success((q.items[0], q'))
    case Failure(e) => Failure(e)
  }

  /** On a queue that keeps the invariant, the `join` barrier is passed exactly when the
      queue is empty. */
  lemma JoinReadyIffEmpty<T>(q: MessageQueue<T>)
    requires Valid(q)
    ensures JoinReady(q) <==> |q.items| == 0
  {
  }

  /** One call on the queue, by the producer or by the consumer. */
  datatype Op<T> = PutOp(item: T) | GetOp

  /** The items put by `ops`, in order. */
  function Puts<T>(ops: seq<Op<T>>): seq<T>
  {
    if |ops| == 0 then []
    else (if ops[0].PutOp? then [ops[0].item] else []) + Puts(ops[1..])
  }

  /** Runs `ops` from `q` and returns what the gets returned, in order, and the final queue.
      A get on an empty queue is still waiting and changes nothing; a failing get ends the run. */
  function Run<T>(q: MessageQueue<T>, ops: seq<Op<T>>): (r: (seq<T>, MessageQueue<T>))
    decreases |ops|
  {
    if |ops| == 0 then ([], q)
    else match ops[0]
      case PutOp(x) => Run(Put(q, x), ops[1..])
      case GetOp =>
        if |q.items| == 0 then Run(q, ops[1..])
        else match Get(q)
          case Failure(_) => ([], q)
          case Success((x, q')) =>
            var (out, q'') := Run(q', ops[1..]);
            ([x] + out, q'')
  }

  /** FIFO: whatever the interleaving of puts and gets, the items got followed by the items
      still queued are the items that were queued at the start followed by the items put,
      in order; and the invariant holds throughout. */
  lemma {:induction false} RunIsFifo<T>(q: MessageQueue<T>, ops: seq<Op<T>>)
    requires Valid(q)
    ensures Run(q, ops).0 + Run(q, ops).1.items == q.items + Puts(ops)
    ensures Valid(Run(q, ops).1)
    decreases |ops|
  {
    if |ops| == 0 {
    } else {
      var rest := ops[1..];
      match ops[0]
      case PutOp(x) =>
        RunIsFifo(Put(q, x), rest);
        assert Puts(ops) == [x] + Puts(rest);
      case GetOp =>
        assert Puts(ops) == Puts(rest);
        if |q.items| == 0 {
          RunIsFifo(q, rest);
        } else {
          var (x, q') := Get(q).value;
          RunIsFifo(q', rest);
          var (out, q'') := Run(q', rest);
          assert Run(q, ops) == ([x] + out, q'');
          calc {
            ([x] + out) + q''.items;
            [x] + (out + q''.items);
            [x] + (q'.items + Puts(rest));
            ([x] + q'.items) + Puts(rest);
            { assert q.items == [x] + q'.items; }
            q.items + Puts(ops);
          }
        }
    }
  }

  /** The consumer takes every queued item in turn until the queue is empty; afterwards `join`
      no longer waits. */
  method DrainAll<T>(q: MessageQueue<T>) returns (taken: seq<T>, rest: MessageQueue<T>)
    requires Valid(q)
    ensures taken == q.items
    ensures |rest.items| == 0 && JoinReady(rest)
  {
    taken := [];
    rest := q;
    while |rest.items| > 0
      invariant Valid(rest)
      invariant taken + rest.items == q.items
      decreases |rest.items|
    {
      var got := Get(rest);
      var (x, rest') := got.value;
      taken := taken + [x];
      rest := rest';
    }
  }
}

=== FILE: scenarios.dfy ===
/** The behaviours the repository's tests pin down, stated on the model. */
module Scenarios {
  import opened Wrappers
  import opened Exceptions
  import opened Json
  import opened Envelope
  import Queues
  import opened Demultiplexer

  const EmptyObject: Json := JObject(map[])

  /** A router with no streams registered. */
  function NoStreams(config: Config): (r: Router)
    ensures WellFormed(r) && r.accepting == {} && r.config == config
  {
    New(config, map[])
  }

  /** A router with a single stream, "echo". */
  function EchoRouter(): (r: Router)
    ensures Valid(r) && r.accepting == {"echo"} && r.config == Default
  {
    New(Default, map["echo" := Consumer("MyWebsocketConsumer")])
  }

  /** A frame without the stream field, or without the payload field, is malformed. */
  lemma MissingKeysRejected(encode: Json -> string)
    ensures ReceiveJson(NoStreams(Default), encode, JObject(map["payload" := EmptyObject]))
      == Failure(ValueError(NoChannelPayloadKey))
    ensures ReceiveJson(NoStreams(Default), encode, JObject(map["stream" := JString("echo")]))
      == Failure(ValueError(NoChannelPayloadKey))
  {
  }

  /** A well-formed frame for a stream that is not registered is not mapped. */
  lemma UnknownStreamRejected(encode: Json -> string)
    ensures ReceiveJson(NoStreams(Default), encode,
        JObject(map["stream" := JString("echo"), "payload" := EmptyObject]))
      == Failure(ValueError(StreamNotMapped))
  {
  }

  /** The field names come from the configuration: with "type" as multiplex key, or "body" as
      payload key, the default-shaped frame is malformed. */
  lemma ConfiguredKeysUsed(encode: Json -> string)
    ensures ReceiveJson(NoStreams(Config("type", "payload")), encode,
        JObject(map["stream" := JString("echo"), "payload" := EmptyObject]))
      == Failure(ValueError(NoChannelPayloadKey))
    ensures ReceiveJson(NoStreams(Config("stream", "body")), encode,
        JObject(map["stream" := JString("echo"), "payload" := EmptyObject]))
      == Failure(ValueError(NoChannelPayloadKey))
  {
  }

  /** The echo exchange: after connect, a frame for "echo" lands behind the connect message on
      echo's queue, and what the echo consumer sends back reaches the client wrapped as
      `{"stream": "echo", "payload": ...}`. */
  lemma EchoExchange(encode: Json -> string)
    ensures var connected := Connect(EchoRouter());
      && connected.sent == [AcceptFrame]
      && ReceiveJson(connected, encode, JObject(map["stream" := JString("echo"), "payload" := EmptyObject])).Success?
      && ReceiveJson(connected, encode, JObject(map["stream" := JString("echo"), "payload" := EmptyObject]))
           .value.inboxes["echo"].items == [ConnectMessage, ReceiveMessage(encode(EmptyObject))]
    ensures SendJsonMultiplexed(Connect(EchoRouter()), "echo", JObject(map["success" := JBool(true)]), false).value.sent
      == [AcceptFrame, JsonFrame(JObject(map["stream" := JString("echo"), "payload" := JObject(map["success" := JBool(true)])]))]
  {
    var r := EchoRouter();
    var connected := Connect(r);
    assert connected.inboxes["echo"] == Queues.Put(r.inboxes["echo"], ConnectMessage);
    var frame := JObject(map["stream" := JString("echo"), "payload" := EmptyObject]);
    assert Unwrap(Default, frame) == Some((JString("echo"), EmptyObject));
  }

  /** Connect then disconnect with one stream: the socket is accepted once, and echo's queue
      holds connect followed by the client's disconnect message, after which echo no longer
      accepts. */
  lemma EchoConnectDisconnect(message: Message)
    ensures WebsocketDisconnect(Connect(EchoRouter()), message).Success?
    ensures var closed := WebsocketDisconnect(Connect(EchoRouter()), message).value;
      && closed.sent == [AcceptFrame]
      && closed.accepting == {}
      && closed.inboxes["echo"].items == [ConnectMessage, message]
  {
    var r := EchoRouter();
    var connected := Connect(r);
    assert connected.inboxes["echo"] == Queues.Put(r.inboxes["echo"], ConnectMessage);
    assert WebsocketDisconnect(connected, message).value.inboxes["echo"] == Queues.Put(connected.inboxes["echo"], message);
  }
}

=== FILE: wrappers.dfy ===
/** Failure-compatible wrappers used by the router model. */
module Wrappers {

  /** A value that may be absent. */
  datatype Option<+T> = None | Some(value: T)

  /** Either the value an operation produced or the exception it raised. */
  datatype Result<+R, +E> = Success(value: R) | Failure(error: E) {

    /** True if the operation raised. */
    predicate IsFailure() {
      Failure?
    }

    /** Carries the exception over to a result of another value type. */
    function PropagateFailure<U>(): Result<U, E>
      requires Failure?
    {
      Failure(error)
    }

    /** The value of a successful operation. */
    function Extract(): R
      requires Success?
    {
      value
    }
  }

  /** The outcome of an operation that returns nothing: it completed, or it raised. */
  datatype Outcome<+E> = Pass | Fail(error: E)
}
